=== FILE: README.md ===
# Presence debounce model of ip-online-checker

ip-online-checker watches devices on a network. Each device is probed by
ping (IP) or by looking in the ARP table (MAC). A debounce step turns the
noisy reachable/unreachable samples into confirmed online/offline changes.
Each confirmed change writes an interval line to the target's log file and
may send a Slack message. A heartbeat line goes to the console
periodically. There are two programs with the same loop: `multi_monitor.py`
runs one monitor per configured target, and `monitor.py` runs a single
target.

This Dafny project models the per-target state machine as pure functions
over immutable state:

- `Presence` holds the monitor state (`isOnline`, `lastStateChange`, the two
  pending timers `onlineStartTime`/`offlineStartTime`, `startTime`,
  `lastHeartbeatTime`). It defines `Created` (the constructor's state),
  `Begin` (the seeding at the start of `run`), `RecordStateChange`,
  `SendHeartbeat`, `Observe` (the sample handling of one loop iteration),
  `Tick` (one full iteration) and `Stop` (the closing lines on interrupt).
  Every output is an `Event`. `Record` is an interval line (file and
  console). `Log` is any other line, flagged if it goes to the file.
  `Notify` is a Slack message.
- `Debounce` proves the single-tick properties. `Runs` drives the loop over
  a list of timed samples and proves the debounce properties over runs.
- `Duration` models `format_duration`. It proves the hours/minutes/seconds
  decomposition and includes a parser for the rendered text, with a round
  trip proof. `Decimal` renders and reads numerals.
- `Config` models how a target's settings are resolved, the log file name
  and the target identity. `Supervisor` models which monitors are built and
  which are started in the multi-target program.
- `SingleMonitor` models `monitor.py`'s configuration and states the tick,
  heartbeat, record and formatting properties for that program. Its loop
  body is the same code, so it reuses `Presence`.

Timestamps are integer seconds, and the clock is a parameter. One `now`
stands for every clock reading of a loop iteration: the source reads the
clock separately when a timer starts, when the threshold is checked, when
the change is recorded and in the heartbeat, and the model does not
distinguish those readings. The probe result is the boolean `sample`. A probe that raises
counts as `false`.

## Behaviour worth knowing

These follow from the code as written, and the model follows it. Only the
second one contradicts a comment in the source:

- **A zero threshold still needs two ticks.** The first disagreeing sample
  only starts the timer, and the threshold is tested only on a later tick
  (`Debounce.ZeroThresholdNeedsTwoTicks`).
- **An agreeing sample does not reset a pending timer.** The comment says
  "reset tracking", but the code clears the timer of the sample's own
  polarity. While the pending-timer invariant holds, that timer is never
  running, so a flap (disagree, agree, disagree) still commits once the
  threshold has passed since the first disagreement
  (`Runs.FlapKeepsTimerRunning`).
- **The online threshold has no global fallback** in `multi_monitor.py`.
  It defaults to 60 straight away (`Config.OnlineThresholdIgnoresGlobals`).
- **`record_state_change` sets the timer of the new direction.** The loop
  clears that timer straight afterwards, so no timer is left after a commit
  (`Debounce.CommitLeavesNoTimer`).
- **Disabled targets are not announced.** `MultiNetworkMonitor.run` never
  calls `run` for a disabled monitor, so the "未启用" notice that `Begin`
  models is never reached that way.

## Model

| member | source | states |
|---|---|---|
| Decimal.FromNat | multi_monitor.py:113-118 | the decimal rendering of a count inside the f-strings: non-empty, digits only, no leading zero; `Decimal.ToNatFromNat` reads it back to the same number |
| Decimal.ToNatFromNat | multi_monitor.py:113-118 | reading a rendered count back gives the count |
| Duration.Split | multi_monitor.py:107-111 | hours·3600 + minutes·60 + seconds equals the span, with minutes and seconds below 60, for every integer span |
| Duration.SplitUnique | multi_monitor.py:109-111 | that decomposition is the only one with minutes and seconds below 60 |
| Duration.FormatSeconds | multi_monitor.py:108-118 | the rendering always ends in the seconds unit "秒"; which units it shows is stated by `Duration.FormatShowsUnits`, and `Duration.FormatRoundTrip` reads it back |
| Duration.FormatDuration | multi_monitor.py:105-118 | read back, the text of the span `end − start` shows exactly the units `Shown` selects, and a forward span gives back its elapsed seconds |
| Duration.FormatShowsUnits | multi_monitor.py:105-118 | read back, the rendering shows hours exactly when hours > 0, minutes exactly when hours or minutes > 0, and always seconds, each with its decomposed value |
| Duration.FormatRoundTrip | monitor.py:100-113 | a non-negative span is recovered exactly from its rendered text (the single-target copy of the formatter is the same code) |
| Duration.FormatExamples | tests/test_multi_monitor.py:65-80 | 30→"30秒", 150→"2分钟30秒", 10950→"3小时2分钟30秒" as the test expects; also a zero span renders "0秒", the same text the heartbeat prints at multi_monitor.py line 128 when no change is on record |
| Config.ReplaceDots | multi_monitor.py:28 | same length as the IP; every '.' becomes '_' and every other character is kept |
| Config.LogFileName | multi_monitor.py:28-29 | eight characters longer than the IP; `Config.LogFileNameChars` fixes every character |
| Config.LogFileNameChars | multi_monitor.py:27-29 | "mon_" + the IP with every '.' turned into '_' + ".log"; other characters kept |
| Config.JoinPath | multi_monitor.py:29 | one separator is added exactly when the directory is non-empty and does not already end in '/', and that separator is '/'; otherwise the path is directory and name side by side |
| Config.JoinPathShape | multi_monitor.py:29 | the path starts with the log directory and ends with the file name |
| Config.Resolve | multi_monitor.py:17-47 | fails exactly when the target has no ip; `enable` defaults to true; the MAC is the configured one (or empty); the target is named by the configured MAC when it is non-empty, else by the IP, and is probed by ARP exactly then; Slack is on only when the global `slack` block says `enabled: true`, and its URL and channel come from that block or are empty |
| Config.ResolveFallbacks | multi_monitor.py:21-25 | ping interval and offline threshold: target, else global, else 5/60; online threshold: target else 60; heartbeat: global else 300 |
| Config.OnlineThresholdIgnoresGlobals | multi_monitor.py:24 | no global setting affects the online threshold |
| Config.LogFileFromIpOnly | multi_monitor.py:27-29 | the log file is named from the IP alone, whatever the MAC |
| Config.LogFileNameExample | tests/test_multi_monitor.py:48-50 | "192.168.1.1" gives "mon_192_168_1_1.log" |
| Config.ResolveFullExample | tests/test_multi_monitor.py:38-50 | the full test target keeps its own interval, threshold and enable flag, and is named by its IP |
| Config.ResolveMinimalExample | tests/test_multi_monitor.py:52-63 | the minimal test target takes the global 5 and 60 and is enabled |
| Presence.Created | multi_monitor.py:37-43 | a new monitor is offline, has no change on record and no timer, and both clocks start at construction |
| Presence.Begin | multi_monitor.py:175-191 | a disabled target only logs "目标 <target> 未启用，跳过监控"; otherwise it announces "开始监控目标: <target> (MAC or IP)", takes the first sample as the state with the change time now, and announces it as the initial state, with no transition event |
| Presence.RecordStateChange | multi_monitor.py:141-173 | interval record from the old change time to now, labelled with the state being left, plus the Slack text when Slack is on; none without a previous change; then the new state, change time now, and the new direction's timer set |
| Presence.SendHeartbeat | multi_monitor.py:120-139 | emits one console-only line iff the interval has elapsed, reporting state, state duration ("0秒" if unset) and run time, and restarts the heartbeat clock |
| Presence.Observe | multi_monitor.py:195-226 | keeps the invariant; commits iff the sample disagrees, its timer runs and the direction's threshold elapsed; after a commit both timers are clear; otherwise only the timers change |
| Presence.Tick | multi_monitor.py:193-229 | keeps the invariant; the state and change time flip exactly on a commit; the heartbeat clock moves to now exactly when the heartbeat is due |
| Presence.Stop | multi_monitor.py:233-243 | the stop notice, then the open interval labelled with the current state up to now when a change is on record |
| Debounce.FirstDisagreeingSampleOnlyStartsTimer | multi_monitor.py:198-213 | a disagreeing sample with no timer only starts its timer at now, with no transition, whatever the threshold |
| Debounce.AgreeingSampleKeepsPendingTimer | multi_monitor.py:221-226 | under the invariant an agreeing sample changes no state, no timer, and reports nothing |
| Debounce.CommitLeavesNoTimer | multi_monitor.py:203-220 | record_state_change leaves the new direction's timer set, and the loop's clearing leaves none after a commit |
| Debounce.TransitionIffCommit | multi_monitor.py:198-220 | a tick reports a transition exactly when it commits |
| Debounce.ZeroThresholdNeedsTwoTicks | multi_monitor.py:199-217 | with threshold 0 the first disagreeing tick does not commit and the second does |
| Debounce.TransitionRecordShape | multi_monitor.py:145-167 | a committing tick first writes the interval of the state being left, or only the change line when none is on record |
| Debounce.HeartbeatIsOnlyConsoleLine | multi_monitor.py:120-139 | the heartbeat is the only line kept off the file, present iff due, last in the tick |
| Runs.Run | multi_monitor.py:193-229 | the `while True` loop over timed samples, one `Tick` per sample; `Runs.RunUnfold` gives its steps, and `Runs.RunPreservesInv` the invariant it keeps |
| Runs.RunKeepsChangeOnRecord | multi_monitor.py:193-229 | once a change is on record, no run of ticks removes it |
| Runs.RunPreservesInv | multi_monitor.py:193-229 | every run of ticks keeps the invariant, so at most one timer is ever running |
| Runs.HeldBelowThreshold | multi_monitor.py:203-217 | disagreeing samples before the threshold commit nothing and keep the timer's start |
| Runs.DebounceCommitsAtThreshold | multi_monitor.py:198-220 | from no timer, nothing commits until the first later sample at least the threshold after the first; that one commits, and over the run exactly one interval record is written, for the state being left |
| Runs.CommitRecords | multi_monitor.py:145-167 | when a change is on record, a committing tick writes exactly one interval record, for the state being left |
| Runs.FlapKeepsTimerRunning | multi_monitor.py:221-226 | disagree at t0, agree at t1, disagree at t2 commits at t2 once t2 − t0 reaches the threshold |
| Supervisor.BuildMonitors | multi_monitor.py:261-264 | one monitor per target in order, each the resolved target; fails iff some target has no ip |
| Supervisor.Setup | multi_monitor.py:256-264 | no targets key gives no monitors; log files sit in `log_path` (default "./logs") |
| Supervisor.Enabled | multi_monitor.py:274-275 | every kept monitor is enabled and configured, and every enabled one is kept |
| Supervisor.EnabledAppend | multi_monitor.py:274-275 | filtering distributes over concatenation, so the kept monitors stay in their configured order |
| Supervisor.EnabledCounts | multi_monitor.py:274-275 | each enabled monitor is kept as many times as it is configured, a disabled one never |
| Supervisor.Launch | multi_monitor.py:266-279 | with no monitors, the console notice and nothing started; otherwise the enabled monitors, in order |
| Supervisor.TwoTargetExample | tests/test_multi_monitor.py:163-181 | two targets build two monitors with their own intervals; only the enabled one starts |
| SingleMonitor.ResolveSingle | monitor.py:14-42 | fails iff a required key is missing, naming the first missing in reading order; ip, mac, ping interval, offline threshold, log file and the three Slack settings are taken from the file; online threshold 60 and heartbeat 300 by default; always enabled; the target is the MAC when non-empty, else the IP, and ARP is used exactly when the MAC is non-empty |
| SingleMonitor.StartAnnouncesInitialState | monitor.py:170-182 | the monitor always starts: it announces the target tagged "(MAC)" exactly when the MAC is non-empty, takes the first sample as the state and announces it, with no transition and no timer |
| SingleMonitor.TickSemantics | monitor.py:184-220 | invariant kept; commit iff disagreeing with a running timer past this file's threshold; no timer after a commit; agreeing samples change nothing |
| SingleMonitor.FirstSampleOnlyStartsTimer | monitor.py:189-204 | the first disagreeing sample only starts the timer |
| SingleMonitor.TransitionReport | monitor.py:136-168 | the interval record and Slack text are labelled with the state being left, and are absent without a previous change |
| SingleMonitor.HeartbeatSchedule | monitor.py:115-134 | the heartbeat fires iff heartbeat_interval (default 300) has elapsed, restarts at now, never goes to file |
| SingleMonitor.ClosingRecord | monitor.py:170-234 | after seeding and any run of ticks, an interrupt always writes the stop notice and then the open interval of the current state, from its change time up to now |

## Left out

- Probing (`ping_target`): the ping/arp subprocesses are replaced by the boolean `sample`. A probe exception reads as `false`.
- Clock: `datetime.now()` becomes the `now` parameter, read once per tick. Timestamps are integer seconds, so `total_seconds()` and its sub-second truncation are not modelled.
- Log output (`log_event`): console printing, file appends, `os.makedirs` and write errors are not modelled. Lines are `Event`s with a to-file flag. The "[%Y-%m-%d %H:%M:%S]" prefix and the "%Y%m%d_%H%M%S" rendering of interval ends are not modelled; records keep the integer times.
- Slack delivery (`send_slack_notification`): the HTTP post, its timeout and its error printing are not modelled. The model emits a `Notify` event only when Slack is enabled and a webhook URL is set.
- Threads, `time.sleep`, `join` and the delivery of `KeyboardInterrupt` are not modelled. Only the closing lines are modelled, as `Presence.Stop`, and only `monitor.py` writes them: there the loop itself catches the interrupt. In `multi_monitor.py` the per-target loops run as daemon threads and the interrupt is caught in the main thread around `join`, which prints "多目标监控已停止" and exits; a target's own `except KeyboardInterrupt` branch is never reached, so no closing interval is written. That console line is not modelled.
- The generic `except Exception` retry branch of the loop (log the error, sleep, retry) is not modelled.
- YAML loading, `sys.argv`, the `VERSION` banner and the `__main__` entry points are not modelled. Configuration values are taken as already parsed. A key present with a null value is not told apart from a missing one.
- Slack settings in `monitor.py` are required keys and are checked. The rest of the Slack payload is not modelled.
- SingleMonitor.ResolveSingle: a `mac` key present but null would give the IP as identity in the source; the model only has present strings or missing keys.

=== FILE: config.dfy ===
/** Configuration of one monitored target in the multi-target monitor:
    the per-target entry, the global settings it falls back to, and the
    resolved settings a monitor runs with (`NetworkMonitor.__init__`). */
module Config {
  import opened Optional

  /** One entry of the `targets` list; every key may be missing. */
  datatype TargetConfig = TargetConfig(
    ip: Option<string>,
    mac: Option<string>,
    enable: Option<bool>,
    pingInterval: Option<int>,
    offlineThreshold: Option<int>,
    onlineThreshold: Option<int>)

  /** The `slack` block of the global settings. */
  datatype SlackConfig = SlackConfig(enabled: Option<bool>, webhookUrl: Option<string>, channel: Option<string>)

  /** The top-level settings other than `targets`. */
  datatype GlobalConfig = GlobalConfig(
    pingInterval: Option<int>,
    offlineThreshold: Option<int>,
    heartbeatInterval: Option<int>,
    slack: Option<SlackConfig>)

  /** The settings a running monitor reads. `target` is what the logs and
      notifications name the device by; `useMac` selects the ARP probe. */
  datatype MonitorConfig = MonitorConfig(
    ip: string,
    mac: string,
    target: string,
    useMac: bool,
    enable: bool,
    pingInterval: int,
    offlineThreshold: int,
    onlineThreshold: int,
    heartbeatInterval: int,
    logFile: string,
    slackEnabled: bool,
    webhookUrl: string,
    channel: string)

  /** Building a monitor fails only with a missing required key (Python's `KeyError`). */
  datatype ConfigError = MissingKey(key: string)

  const DefaultPingInterval: int := 5
  const DefaultOfflineThreshold: int := 60
  const DefaultOnlineThreshold: int := 60
  const DefaultHeartbeatInterval: int := 300

  /** `send_slack_notification` returns at once unless Slack is enabled
      and a webhook URL is set. */
  predicate NotificationsOn(cfg: MonitorConfig) {
    cfg.slackEnabled && cfg.webhookUrl != ""
  }

  /** Every '.' of an address replaced by '_', all else kept (`str.replace('.', '_')`). */
  function ReplaceDots(s: string): (r: string)
    ensures |r| == |s|
    ensures forall i :: 0 <= i < |s| ==> r[i] == (if s[i] == '.' then '_' else s[i])
  {
    seq(|s|, i requires 0 <= i < |s| => if s[i] == '.' then '_' else s[i])
  }

  /** The per-target log file name, "mon_<ip with '.' as '_'>.log". */
  function LogFileName(ip: string): (name: string)
    ensures |name| == |ip| + 8
  {
    "mon_" + ReplaceDots(ip) + ".log"
  }

  /** Between "mon_" and ".log" the name is the IP with its dots turned into
      underscores: it holds no '.', and every other character is the IP's. */
  lemma LogFileNameChars(ip: string)
    ensures LogFileName(ip)[..4] == "mon_"
    ensures LogFileName(ip)[|ip| + 4..] == ".log"
    ensures var name := LogFileName(ip);
      forall i :: 4 <= i < |name| - 4 ==> name[i] == (if ip[i - 4] == '.' then '_' else ip[i - 4])
  {
  }

  /** `os.path.join(directory, name)` for a relative `name`: a '/' goes
      between the two unless the directory is empty or already ends in one. */
  function JoinPath(directory: string, name: string): (path: string)
    ensures |directory| + |name| <= |path| <= |directory| + |name| + 1
    ensures |path| == |directory| + |name| + 1 <==> |directory| > 0 && directory[|directory| - 1] != '/'
    ensures |path| == |directory| + |name| + 1 ==> path[|directory|] == '/'
  {
    if |directory| == 0 || directory[|directory| - 1] == '/' then directory + name
    else directory + "/" + name
  }

  /** The joined path starts with the directory and ends with the name. */
  lemma JoinPathShape(directory: string, name: string)
    ensures JoinPath(directory, name)[..|directory|] == directory
    ensures JoinPath(directory, name)[|JoinPath(directory, name)| - |name|..] == name
  {
  }

  /** The device name used in logs: the MAC when one is given, else the IP. */
  function Identity(ip: string, mac: string): string {
    if mac != "" then mac else ip
  }

  /** `NetworkMonitor.__init__` of the multi-target monitor. */
  function Resolve(t: TargetConfig, g: GlobalConfig, logPath: string): (r: Result<MonitorConfig, ConfigError>)
    ensures r.Failure? <==> t.ip.None?
    ensures r.Failure? ==> r.error == MissingKey("ip")
    ensures r.Success? ==> r.value.ip == t.ip.value
    ensures r.Success? ==> r.value.enable == (t.enable != Some(false))
    ensures r.Success? ==> r.value.target == (if r.value.useMac then r.value.mac else r.value.ip)
    ensures r.Success? ==> (r.value.useMac <==> t.mac.Some? && t.mac.value != "")
    ensures r.Success? ==> r.value.mac == t.mac.GetOr("")
    ensures r.Success? ==> r.value.target == (if t.mac.Some? && t.mac.value != "" then t.mac.value else t.ip.value)
    ensures r.Success? ==> r.value.slackEnabled == (g.slack.Some? && g.slack.value.enabled == Some(true))
    ensures r.Success? ==> r.value.webhookUrl == (if g.slack.Some? then g.slack.value.webhookUrl.GetOr("") else "")
    ensures r.Success? ==> r.value.channel == (if g.slack.Some? then g.slack.value.channel.GetOr("") else "")
  {
    if t.ip.None? then Failure(MissingKey("ip"))
    else
      var ip := t.ip.value;
      var mac := t.mac.GetOr("");
      var slack := g.slack.GetOr(SlackConfig(None, None, None));
      Success(MonitorConfig(
        ip := ip,
        mac := mac,
        target := Identity(ip, mac),
        useMac := mac != "",
        enable := t.enable.GetOr(true),
        pingInterval := t.pingInterval.GetOr(g.pingInterval.GetOr(DefaultPingInterval)),
        offlineThreshold := t.offlineThreshold.GetOr(g.offlineThreshold.GetOr(DefaultOfflineThreshold)),
        onlineThreshold := t.onlineThreshold.GetOr(DefaultOnlineThreshold),
        heartbeatInterval := g.heartbeatInterval.GetOr(DefaultHeartbeatInterval),
        logFile := JoinPath(logPath, LogFileName(ip)),
        slackEnabled := slack.enabled.GetOr(false),
        webhookUrl := slack.webhookUrl.GetOr(""),
        channel := slack.channel.GetOr("")))
  }

  /** Where each interval and threshold comes from: the target's own value
      wins; ping interval and offline threshold fall back to the global
      setting and then to 5 and 60; the online threshold has no global
      fallback and defaults to 60; the heartbeat interval is global only
      and defaults to 300. */
  lemma ResolveFallbacks(t: TargetConfig, g: GlobalConfig, logPath: string)
    requires t.ip.Some?
    ensures var c := Resolve(t, g, logPath).value;
      && (t.pingInterval.Some? ==> c.pingInterval == t.pingInterval.value)
      && (t.pingInterval.None? && g.pingInterval.Some? ==> c.pingInterval == g.pingInterval.value)
      && (t.pingInterval.None? && g.pingInterval.None? ==> c.pingInterval == 5)
      && (t.offlineThreshold.Some? ==> c.offlineThreshold == t.offlineThreshold.value)
      && (t.offlineThreshold.None? && g.offlineThreshold.Some? ==> c.offlineThreshold == g.offlineThreshold.value)
      && (t.offlineThreshold.None? && g.offlineThreshold.None? ==> c.offlineThreshold == 60)
      && (t.onlineThreshold.Some? ==> c.onlineThreshold == t.onlineThreshold.value)
      && (t.onlineThreshold.None? ==> c.onlineThreshold == 60)
      && (g.heartbeatInterval.Some? ==> c.heartbeatInterval == g.heartbeatInterval.value)
      && (g.heartbeatInterval.None? ==> c.heartbeatInterval == 300)
  {
  }

  /** The online threshold ignores every global setting. */
  lemma OnlineThresholdIgnoresGlobals(t: TargetConfig, g1: GlobalConfig, g2: GlobalConfig, logPath: string)
    requires t.ip.Some?
    ensures Resolve(t, g1, logPath).value.onlineThreshold == Resolve(t, g2, logPath).value.onlineThreshold
  {
  }

  /** The log file sits in the log directory and is named from the IP alone,
      whether or not a MAC is configured. */
  lemma LogFileFromIpOnly(t: TargetConfig, g: GlobalConfig, logPath: string)
    requires t.ip.Some?
    ensures Resolve(t, g, logPath).value.logFile == JoinPath(logPath, LogFileName(t.ip.value))
    ensures Resolve(t, g, logPath).value.logFile == Resolve(t.(mac := None), g, logPath).value.logFile
  {
  }

  /** The log file name of the test fixture's address. */
  lemma LogFileNameExample()
    ensures LogFileName("192.168.1.1") == "mon_192_168_1_1.log"
  {
    ReplaceDotsExample();
  }

  lemma ReplaceDotsExample()
    ensures ReplaceDots("192.168.1.1") == "192_168_1_1"
  {
    var s := "192.168.1.1";
    var r := ReplaceDots(s);
    assert r[0] == '1' && r[1] == '9' && r[2] == '2' && r[3] == '_';
    assert r[4] == '1' && r[5] == '6' && r[6] == '8' && r[7] == '_';
    assert r[8] == '1' && r[9] == '_' && r[10] == '1';
  }

  /** The full target entry of the multi-target tests keeps its own values. */
  lemma ResolveFullExample()
    ensures var g := GlobalConfig(Some(5), Some(60), Some(300), Some(SlackConfig(Some(false), Some(""), Some(""))));
      var c := Resolve(TargetConfig(Some("192.168.1.1"), Some(""), Some(true), Some(1), Some(2), Some(2)), g, "logs");
      && c.Success?
      && c.value.pingInterval == 1 && c.value.offlineThreshold == 2 && c.value.enable
      && c.value.target == "192.168.1.1" && !c.value.useMac
  {
    var g := GlobalConfig(Some(5), Some(60), Some(300), Some(SlackConfig(Some(false), Some(""), Some(""))));
    var t := TargetConfig(Some("192.168.1.1"), Some(""), Some(true), Some(1), Some(2), Some(2));
    var c := Resolve(t, g, "logs");
    assert c.Success?;
    assert !c.value.useMac;
  }

  /** The minimal target entry of the multi-target tests takes the global
      fallbacks and is enabled. */
  lemma ResolveMinimalExample()
    ensures var g := GlobalConfig(Some(5), Some(60), Some(300), Some(SlackConfig(Some(false), Some(""), Some(""))));
      var c := Resolve(TargetConfig(Some("192.168.1.2"), None, None, None, None, None), g, "logs");
      && c.Success?
      && c.value.pingInterval == 5 && c.value.offlineThreshold == 60 && c.value.enable
  {
    var g := GlobalConfig(Some(5), Some(60), Some(300), Some(SlackConfig(Some(false), Some(""), Some(""))));
    var t := TargetConfig(Some("192.168.1.2"), None, None, None, None, None);
    var c := Resolve(t, g, "logs");
    assert c.Success?;
  }
}

=== FILE: debounce.dfy ===
/** Properties of a single poll tick of the presence state machine. */
module Debounce {
  import opened Optional
  import opened Config
  import opened Duration
  import opened Presence

  /** Heartbeat lines are console-only; everything the sample handling emits
      is either a file line or a notification. */
  lemma ObserveWritesNoConsoleOnlyLine(cfg: MonitorConfig, st: MonitorState, sample: bool, now: int)
    ensures forall i :: 0 <= i < |Observe(cfg, st, sample, now).events| ==>
      !(Observe(cfg, st, sample, now).events[i].Log? && !Observe(cfg, st, sample, now).events[i].toFile)
  {
  }

  /** A disagreeing sample with no timer running only starts that timer:
      nothing else changes and no transition is reported, whatever the
      threshold, zero included. */
  lemma FirstDisagreeingSampleOnlyStartsTimer(cfg: MonitorConfig, st: MonitorState, sample: bool, now: int)
    requires sample != st.isOnline
    requires PendingFor(st, sample).None?
    ensures var r := Tick(cfg, st, sample, now);
      && r.state.isOnline == st.isOnline
      && r.state.lastStateChange == st.lastStateChange
      && PendingFor(r.state, sample) == Some(now)
      && PendingFor(r.state, !sample) == PendingFor(st, !sample)
      && NoTransition(r.events)
  {
    var o := Observe(cfg, st, sample, now);
    var h := SendHeartbeat(cfg, o.state, now);
    assert o.events == [];
    assert Tick(cfg, st, sample, now).events == h.events;
  }

  /** A sample agreeing with the confirmed state reports nothing and keeps
      the state and its start time; it clears the timer of its own polarity,
      which, while the invariant holds, is not running anyway, so a pending
      timer of the other polarity survives. */
  lemma AgreeingSampleKeepsPendingTimer(cfg: MonitorConfig, st: MonitorState, sample: bool, now: int)
    requires Inv(st)
    requires sample == st.isOnline
    ensures var o := Observe(cfg, st, sample, now);
      && o.state == st
      && o.events == []
    ensures var r := Tick(cfg, st, sample, now);
      && r.state.isOnline == st.isOnline
      && r.state.lastStateChange == st.lastStateChange
      && r.state.onlineStartTime == st.onlineStartTime
      && r.state.offlineStartTime == st.offlineStartTime
      && NoTransition(r.events)
  {
  }

  /** A committing tick flips the state, restarts the interval at `now`, and
      leaves no timer running: `record_state_change` sets the timer of the
      new direction, and the loop clears it straight after. */
  lemma CommitLeavesNoTimer(cfg: MonitorConfig, st: MonitorState, sample: bool, now: int)
    requires Commits(cfg, st, sample, now)
    ensures PendingFor(RecordStateChange(cfg, st, sample, now).state, sample) == Some(now)
    ensures var r := Tick(cfg, st, sample, now);
      && r.state.isOnline == sample
      && r.state.lastStateChange == Some(now)
      && NoPending(r.state)
      && Inv(r.state)
  {
  }

  /** A tick reports a transition exactly when it commits. */
  lemma TransitionIffCommit(cfg: MonitorConfig, st: MonitorState, sample: bool, now: int)
    ensures Commits(cfg, st, sample, now) <==> !NoTransition(Tick(cfg, st, sample, now).events)
  {
    var o := Observe(cfg, st, sample, now);
    var h := SendHeartbeat(cfg, o.state, now);
    var es := Tick(cfg, st, sample, now).events;
    assert es == o.events + h.events;
    if Commits(cfg, st, sample, now) {
      assert o.events[|o.events| - 1] == Log(StateChangeMessage(sample), true);
      assert es[|o.events| - 1] == o.events[|o.events| - 1];
    } else {
      assert o.events == [];
      assert es == h.events;
    }
  }

  /** With a zero threshold the first disagreeing sample still only starts
      the timer; the change is committed by the next disagreeing sample. */
  lemma ZeroThresholdNeedsTwoTicks(cfg: MonitorConfig, st: MonitorState, t0: int, t1: int)
    requires Inv(st) && NoPending(st)
    requires ThresholdFor(cfg, !st.isOnline) == 0
    requires t0 <= t1
    ensures var first := Tick(cfg, st, !st.isOnline, t0);
      && first.state.isOnline == st.isOnline
      && NoTransition(first.events)
      && Commits(cfg, first.state, !st.isOnline, t1)
      && Tick(cfg, first.state, !st.isOnline, t1).state.isOnline == !st.isOnline
  {
    FirstDisagreeingSampleOnlyStartsTimer(cfg, st, !st.isOnline, t0);
  }

  /** The transition a committing tick reports: the interval from the old
      `lastStateChange` to `now`, labelled with the state being LEFT, its
      duration rendered, then the "状态变更" line naming the new state. With
      no previous change on record only the "状态变更" line appears. */
  lemma TransitionRecordShape(cfg: MonitorConfig, st: MonitorState, sample: bool, now: int)
    requires Commits(cfg, st, sample, now)
    ensures var es := Tick(cfg, st, sample, now).events;
      st.lastStateChange.Some? ==>
        es[0] == Record(st.lastStateChange.value, now, StateLabel(!sample),
                        FormatDuration(st.lastStateChange.value, now))
    ensures var es := Tick(cfg, st, sample, now).events;
      st.lastStateChange.None? ==> es[0] == Log(StateChangeMessage(sample), true)
  {
  }

  /** Within a tick, the heartbeat is the only line kept off the log file:
      there is such a line exactly when the heartbeat is due, it comes last,
      and it reports the state after the sample was handled. */
  lemma HeartbeatIsOnlyConsoleLine(cfg: MonitorConfig, st: MonitorState, sample: bool, now: int)
    ensures var es := Tick(cfg, st, sample, now).events;
      HeartbeatDue(cfg, st, now) <==> exists i :: 0 <= i < |es| && es[i].Log? && !es[i].toFile
    ensures var es := Tick(cfg, st, sample, now).events;
      var o := Observe(cfg, st, sample, now).state;
      forall i :: 0 <= i < |es| && es[i].Log? && !es[i].toFile ==>
        && i == |es| - 1
        && es[i].message == HeartbeatMessage(o.isOnline,
                                             if o.lastStateChange.Some? then FormatDuration(o.lastStateChange.value, now)
                                             else FormatSeconds(0),
                                             FormatDuration(o.startTime, now))
  {
    var o := Observe(cfg, st, sample, now);
    var h := SendHeartbeat(cfg, o.state, now);
    var es := Tick(cfg, st, sample, now).events;
    assert es == o.events + h.events;
    ObserveWritesNoConsoleOnlyLine(cfg, st, sample, now);
    assert HeartbeatDue(cfg, o.state, now) == HeartbeatDue(cfg, st, now);
    if HeartbeatDue(cfg, st, now) {
      assert es[|es| - 1] == h.events[0];
    }
    forall i | 0 <= i < |es| && es[i].Log? && !es[i].toFile
      ensures i == |es| - 1
    {
      assert i >= |o.events|;
    }
  }
}

=== FILE: decimal.dfy ===
/** Decimal rendering of natural numbers, as Python's f-string `{n}` does
    for a non-negative `int`, together with the reading back of a digit run. */
module Decimal {

  predicate IsDigit(c: char) {
    '0' <= c <= '9'
  }

  predicate AllDigits(s: string) {
    forall i :: 0 <= i < |s| ==> IsDigit(s[i])
  }

  function DigitChar(d: nat): (c: char)
    requires d < 10
    ensures IsDigit(c)
    ensures DigitValue(c) == d
  {
    "0123456789"[d]
  }

  function DigitValue(c: char): (d: nat)
    requires IsDigit(c)
    ensures d < 10
  {
    (c as int) - ('0' as int)
  }

  /** The shortest decimal numeral of `n`: never empty, digits only, no leading zero. */
  function FromNat(n: nat): (s: string)
    ensures 1 <= |s|
    ensures AllDigits(s)
    ensures 1 < |s| ==> s[0] != '0'
    decreases n
  {
    if n < 10 then [DigitChar(n)] else FromNat(n / 10) + [DigitChar(n % 10)]
  }

  /** The value of a run of decimal digits (the empty run reads as 0). */
  function ToNat(s: string): nat
    requires AllDigits(s)
  {
    if |s| == 0 then 0 else ToNat(s[..|s| - 1]) * 10 + DigitValue(s[|s| - 1])
  }

  /** Reading a rendered numeral gives back the number it renders. */
  lemma {:induction false} ToNatFromNat(n: nat)
    ensures ToNat(FromNat(n)) == n
    decreases n
  {
    if n >= 10 {
      var s := FromNat(n);
      assert s[..|s| - 1] == FromNat(n / 10);
      ToNatFromNat(n / 10);
    }
  }

  /** Length of the longest prefix of `s` made of decimal digits. */
  function DigitRun(s: string): (k: nat)
    ensures k <= |s|
    ensures AllDigits(s[..k])
    ensures k < |s| ==> !IsDigit(s[k])
  {
    if |s| == 0 || !IsDigit(s[0]) then 0
    else
      var k := 1 + DigitRun(s[1..]);
      assert s[..k] == [s[0]] + s[1..][..k - 1];
      k
  }

  /** The digit run at the front of `d + rest` is exactly `d`, when `rest` does not start with a digit. */
  lemma {:induction false} DigitRunOfNumeral(d: string, rest: string)
    requires AllDigits(d)
    requires |rest| == 0 || !IsDigit(rest[0])
    ensures DigitRun(d + rest) == |d|
    decreases |d|
  {
    if |d| > 0 {
      assert (d + rest)[1..] == d[1..] + rest;
      DigitRunOfNumeral(d[1..], rest);
    } else {
      assert d + rest == rest;
    }
  }
}

=== FILE: duration.dfy ===
/** `format_duration` of both monitors: a span of whole seconds rendered as
    hours, minutes and seconds in Chinese units, omitting leading zero units. */
module Duration {
  import opened Optional
  import opened Decimal

  const HourUnit: string := "小时"
  const MinuteUnit: string := "分钟"
  const SecondUnit: string := "秒"

  /** Hours, minutes and seconds of a span. */
  datatype Hms = Hms(hours: int, minutes: nat, seconds: nat)

  /** The decomposition the formatter uses. Python's `//` and `%` by a
      positive divisor floor, which is what Dafny's `/` and `%` do too, so
      the decomposition is exact for every integer, negative spans included. */
  function Split(total: int): (p: Hms)
    ensures p.hours * 3600 + p.minutes * 60 + p.seconds == total
    ensures p.minutes < 60 && p.seconds < 60
  {
    Hms(total / 3600, (total % 3600) / 60, total % 60)
  }

  /** `Split` is the only decomposition with minutes and seconds below 60. */
  lemma SplitUnique(total: int, p: Hms)
    requires p.hours * 3600 + p.minutes * 60 + p.seconds == total
    requires p.minutes < 60 && p.seconds < 60
    ensures p == Split(total)
  {
    var q := Split(total);
    var a := p.minutes * 60 + p.seconds;
    var b := q.minutes * 60 + q.seconds;
    assert 0 <= a < 3600 && 0 <= b < 3600;
    assert (p.hours - q.hours) * 3600 == b - a;
    assert p.hours == q.hours;
    assert p.seconds - q.seconds == (q.minutes - p.minutes) * 60;
    assert p.minutes == q.minutes;
  }

  /** The rendering of a span of `total` whole seconds. */
  function FormatSeconds(total: int): (s: string)
    ensures 0 < |s| && s[|s| - 1] == '秒'
  {
    var p := Split(total);
    if p.hours > 0 then
      FromNat(p.hours) + HourUnit + FromNat(p.minutes) + MinuteUnit + FromNat(p.seconds) + SecondUnit
    else if p.minutes > 0 then
      FromNat(p.minutes) + MinuteUnit + FromNat(p.seconds) + SecondUnit
    else
      FromNat(p.seconds) + SecondUnit
  }

  /** `format_duration(start, end)` over integer-second timestamps. Read
      back, the text shows the units `Shown` selects for the span, and for
      a forward span it gives back the elapsed seconds exactly. */
  function FormatDuration(start: int, end: int): (text: string)
    ensures ParseFields(text) == Some(Shown(end - start))
    ensures start <= end ==> FieldsTotal(ParseFields(text).value) == end - start
  {
    var span := end - start;
    FormatShowsUnits(span);
    FieldsTotalShown(span);
    FormatSeconds(span)
  }

  // ---------------------------------------------------------------------
  // Reading a rendered duration back: the partner of FormatSeconds.

  /** The units a rendering shows, each with its number. Hours and minutes
      may be absent; seconds are always shown. */
  datatype Fields = Fields(hours: Option<nat>, minutes: Option<nat>, seconds: nat)

  /** Reads a leading decimal number, returning it and the text after it. */
  function ReadNumber(s: string): Option<(nat, string)> {
    var k := DigitRun(s);
    if k == 0 then None else Some((ToNat(s[..k]), s[k..]))
  }

  predicate StartsWith(s: string, lit: string) {
    |lit| <= |s| && s[..|lit|] == lit
  }

  /** Reads "<n>秒". */
  function ReadSeconds(s: string): Option<nat> {
    match ReadNumber(s)
    case None => None
    case Some((n, rest)) => if rest == SecondUnit then Some(n) else None
  }

  /** Reads "<m>分钟<n>秒". */
  function ReadMinutesSeconds(s: string): Option<(nat, nat)> {
    match ReadNumber(s)
    case None => None
    case Some((m, rest)) =>
      if StartsWith(rest, MinuteUnit) then
        match ReadSeconds(rest[|MinuteUnit|..])
        case None => None
        case Some(n) => Some((m, n))
      else None
  }

  /** Reads any of the three forms the formatter produces. */
  function ParseFields(s: string): Option<Fields> {
    match ReadNumber(s)
    case None => None
    case Some((a, rest)) =>
      if rest == SecondUnit then Some(Fields(None, None, a))
      else if StartsWith(rest, MinuteUnit) then
        match ReadSeconds(rest[|MinuteUnit|..])
        case None => None
        case Some(n) => Some(Fields(None, Some(a), n))
      else if StartsWith(rest, HourUnit) then
        match ReadMinutesSeconds(rest[|HourUnit|..])
        case None => None
        case Some((m, n)) => Some(Fields(Some(a), Some(m), n))
      else None
  }

  /** Total seconds denoted by the parsed fields. */
  function FieldsTotal(f: Fields): nat {
    f.hours.GetOr(0) * 3600 + f.minutes.GetOr(0) * 60 + f.seconds
  }

  lemma ReadNumberOfNumeral(n: nat, rest: string)
    requires |rest| == 0 || !IsDigit(rest[0])
    ensures ReadNumber(FromNat(n) + rest) == Some((n, rest))
  {
    var d := FromNat(n);
    DigitRunOfNumeral(d, rest);
    assert (d + rest)[..|d|] == d;
    assert (d + rest)[|d|..] == rest;
    ToNatFromNat(n);
  }

  lemma ReadSecondsOf(n: nat)
    ensures ReadSeconds(FromNat(n) + SecondUnit) == Some(n)
  {
    ReadNumberOfNumeral(n, SecondUnit);
  }

  lemma ReadMinutesSecondsOf(m: nat, n: nat)
    ensures ReadMinutesSeconds(FromNat(m) + MinuteUnit + FromNat(n) + SecondUnit) == Some((m, n))
  {
    var tail := FromNat(n) + SecondUnit;
    var rest := MinuteUnit + tail;
    assert FromNat(m) + MinuteUnit + FromNat(n) + SecondUnit == FromNat(m) + rest;
    ReadNumberOfNumeral(m, rest);
    assert rest[|MinuteUnit|..] == tail;
    ReadSecondsOf(n);
  }

  /** The units a span should show: hours exactly when there is at least
      one whole hour, minutes exactly when hours or minutes are nonzero,
      seconds always, each with the value `Split` computes. */
  function Shown(total: int): Fields {
    var p := Split(total);
    Fields(if p.hours > 0 then Some(p.hours) else None,
           if p.hours > 0 || p.minutes > 0 then Some(p.minutes) else None,
           p.seconds)
  }

  /** The formatter shows exactly the units `Shown` selects. */
  lemma FormatShowsUnits(total: int)
    ensures ParseFields(FormatSeconds(total)) == Some(Shown(total))
  {
    var p := Split(total);
    var s := FormatSeconds(total);
    if p.hours > 0 {
      var h: nat := p.hours;
      var ms := FromNat(p.minutes) + MinuteUnit + FromNat(p.seconds) + SecondUnit;
      var rest := HourUnit + ms;
      assert s == FromNat(h) + rest;
      ReadNumberOfNumeral(h, rest);
      assert rest != SecondUnit;
      assert !StartsWith(rest, MinuteUnit);
      assert rest[|HourUnit|..] == ms;
      ReadMinutesSecondsOf(p.minutes, p.seconds);
    } else if p.minutes > 0 {
      var tail := FromNat(p.seconds) + SecondUnit;
      var rest := MinuteUnit + tail;
      assert s == FromNat(p.minutes) + rest;
      ReadNumberOfNumeral(p.minutes, rest);
      assert rest != SecondUnit;
      assert rest[|MinuteUnit|..] == tail;
      ReadSecondsOf(p.seconds);
    } else {
      ReadNumberOfNumeral(p.seconds, SecondUnit);
    }
  }

  /** Adding up the fields `Shown` selects gives the span back. */
  lemma FieldsTotalShown(total: int)
    ensures total >= 0 ==> FieldsTotal(Shown(total)) == total
  {
  }

  /** Round trip: a non-negative span is recovered exactly from its rendering. */
  lemma FormatRoundTrip(total: nat)
    ensures ParseFields(FormatSeconds(total)).Some?
    ensures FieldsTotal(ParseFields(FormatSeconds(total)).value) == total
  {
    FormatShowsUnits(total);
    var p := Split(total);
    assert FieldsTotal(Shown(total)) == p.hours * 3600 + p.minutes * 60 + p.seconds;
  }

  /** The worked examples: 0, 30, 150 and 10950 seconds. */
  lemma FormatExamples()
    ensures FormatSeconds(0) == "0秒"
    ensures FormatSeconds(30) == "30秒"
    ensures FormatSeconds(150) == "2分钟30秒"
    ensures FormatSeconds(10950) == "3小时2分钟30秒"
  {
    assert FromNat(30) == "30";
    assert FromNat(2) == "2";
    assert FromNat(3) == "3";
  }
}

=== FILE: optional.dfy ===
/** Option and Result wrappers used for Python's `None` and for the
    configuration errors (`KeyError`) the monitors can raise. */
module Optional {

  /** A value that may be absent: Python's `None` or a missing key. */
  datatype Option<+T> = None | Some(value: T) {

    /** The held value, or `default` when absent (Python's `dict.get(key, default)`). */
    function GetOr(default: T): T {
      match this
      case Some(v) => v
      case None => default
    }
  }

  /** Either a successfully built value or the error that stopped the build. */
  datatype Result<+R, +E> = Success(value: R) | Failure(error: E)
}

=== FILE: presence.dfy ===
/** The per-target presence state machine: one poll tick of the monitoring
    loop, the state-change record, the heartbeat, the initial seeding and
    the closing record. Timestamps are integer seconds; the clock is the
    parameter `now`, one reading per tick. */
module Presence {
  import opened Optional
  import opened Config
  import opened Duration

  /** What a monitor remembers between ticks. `onlineStartTime` and
      `offlineStartTime` are the pending (debounce) timers. */
  datatype MonitorState = MonitorState(
    isOnline: bool,
    lastStateChange: Option<int>,
    onlineStartTime: Option<int>,
    offlineStartTime: Option<int>,
    startTime: int,
    lastHeartbeatTime: int)

  /** What a tick emits, in order.
      - `Record`: the interval line "<start>-><end> [<stateText><duration>]", to file and console;
      - `Log`: any other log line, to the console and, when `toFile`, to the target's file;
      - `Notify`: a Slack message. */
  datatype Event =
    | Record(start: int, end: int, stateText: string, duration: string)
    | Log(message: string, toFile: bool)
    | Notify(channel: string, text: string)

  /** A new state together with the events produced on the way. */
  datatype Step = Step(state: MonitorState, events: seq<Event>)

  /** The result of starting a monitor: a disabled target is skipped. */
  datatype Start = Skipped(notice: Event) | Running(state: MonitorState, events: seq<Event>)

  function StateLabel(online: bool): string {
    if online then "在线" else "离线"
  }

  function StateChangeMessage(online: bool): string {
    "状态变更: " + StateLabel(online)
  }

  function HeartbeatMessage(online: bool, stateDuration: string, runTime: string): string {
    "[心跳] 当前状态: " + StateLabel(online) + " | 持续时间: " + stateDuration + " | 运行时间: " + runTime
  }

  /** The Slack text for a committed change, naming the state being left. */
  function NotificationText(target: string, wasOnline: bool, duration: string): string {
    if wasOnline then "设备 " + target + " 已下线，持续时间: " + duration
    else "设备 " + target + " 已上线，离线持续时间: " + duration
  }

  /** The notice for a target that is configured but disabled. */
  function SkippedMessage(target: string): string {
    "目标 " + target + " 未启用，跳过监控"
  }

  /** The start announcement, naming the target and how it is probed. */
  function StartMessage(target: string, useMac: bool): string {
    "开始监控目标: " + target + " (" + (if useMac then "MAC" else "IP") + ")"
  }

  const StoppedMessage: string := "监控已停止"

  /** The pending timer for a move towards `online`. */
  function PendingFor(st: MonitorState, online: bool): Option<int> {
    if online then st.onlineStartTime else st.offlineStartTime
  }

  /** The threshold for a move towards `online`. */
  function ThresholdFor(cfg: MonitorConfig, online: bool): int {
    if online then cfg.onlineThreshold else cfg.offlineThreshold
  }

  /** Only the timer towards the state the monitor is NOT in may be set. */
  predicate Inv(st: MonitorState) {
    && (st.onlineStartTime.Some? ==> !st.isOnline)
    && (st.offlineStartTime.Some? ==> st.isOnline)
  }

  predicate NoPending(st: MonitorState) {
    st.onlineStartTime.None? && st.offlineStartTime.None?
  }

  /** A tick with `sample` at `now` commits a change: the sample disagrees,
      its timer is already running, and the threshold has elapsed. */
  predicate Commits(cfg: MonitorConfig, st: MonitorState, sample: bool, now: int) {
    && sample != st.isOnline
    && PendingFor(st, sample).Some?
    && now - PendingFor(st, sample).value >= ThresholdFor(cfg, sample)
  }

  /** Events that report a confirmed change. */
  predicate IsTransitionEvent(e: Event) {
    e.Record? || e.Notify? || e == Log(StateChangeMessage(true), true) || e == Log(StateChangeMessage(false), true)
  }

  predicate NoTransition(events: seq<Event>) {
    forall i :: 0 <= i < |events| ==> !IsTransitionEvent(events[i])
  }

  /** The state `__init__` leaves: offline, never changed, nothing pending,
      both clocks at construction time. */
  function Created(now: int): (st: MonitorState)
    ensures Inv(st) && NoPending(st)
    ensures !st.isOnline && st.lastStateChange.None?
    ensures st.startTime == now && st.lastHeartbeatTime == now
  {
    MonitorState(false, None, None, None, now, now)
  }

  /** The start of `run`: a disabled target is skipped with a notice;
      otherwise the first sample is taken as the state at once, with only
      the start and initial-state announcements and no transition. */
  function Begin(cfg: MonitorConfig, st: MonitorState, sample: bool, now: int): (r: Start)
    ensures r.Running? <==> cfg.enable
    ensures r.Skipped? ==> r.notice == Log(SkippedMessage(cfg.target), true)
    ensures r.Running? ==> r.state.isOnline == sample && r.state.lastStateChange == Some(now)
    ensures r.Running? ==> r.state.(isOnline := st.isOnline, lastStateChange := st.lastStateChange) == st
    ensures r.Running? ==> |r.events| == 2 && NoTransition(r.events)
    ensures r.Running? ==> r.events[0] == Log(StartMessage(cfg.target, cfg.useMac), true)
    ensures r.Running? ==> r.events[1] == Log("初始状态: " + StateLabel(sample), true)
    ensures r.Running? && NoPending(st) ==> Inv(r.state)
  {
    if !cfg.enable then
      Skipped(Log(SkippedMessage(cfg.target), true))
    else
      var announce := StartMessage(cfg.target, cfg.useMac);
      var initial := "初始状态: " + StateLabel(sample);
      assert announce[0] != StateChangeMessage(true)[0] && announce[0] != StateChangeMessage(false)[0];
      assert initial[0] != StateChangeMessage(true)[0] && initial[0] != StateChangeMessage(false)[0];
      Running(st.(isOnline := sample, lastStateChange := Some(now)), [Log(announce, true), Log(initial, true)])
  }

  /** `record_state_change`: report the interval that ends now (only when a
      previous change is known), then switch state, restart the interval,
      and set the timer of the NEW direction to now. */
  function RecordStateChange(cfg: MonitorConfig, st: MonitorState, newState: bool, now: int): (r: Step)
    ensures r.state.isOnline == newState && r.state.lastStateChange == Some(now)
    ensures PendingFor(r.state, newState) == Some(now) && PendingFor(r.state, !newState) == None
    ensures r.state.startTime == st.startTime && r.state.lastHeartbeatTime == st.lastHeartbeatTime
    ensures st.lastStateChange.None? <==> r.events == []
    ensures st.lastStateChange.Some? ==>
      && |r.events| == (if NotificationsOn(cfg) then 2 else 1)
      && r.events[0] == Record(st.lastStateChange.value, now, StateLabel(st.isOnline),
                               FormatDuration(st.lastStateChange.value, now))
    ensures st.lastStateChange.Some? && NotificationsOn(cfg) ==>
      r.events[1] == Notify(cfg.channel, NotificationText(cfg.target, st.isOnline,
                                                          FormatDuration(st.lastStateChange.value, now)))
  {
    var events :=
      match st.lastStateChange
      case None => []
      case Some(since) =>
        var duration := FormatDuration(since, now);
        [Record(since, now, StateLabel(st.isOnline), duration)]
        + (if NotificationsOn(cfg) then [Notify(cfg.channel, NotificationText(cfg.target, st.isOnline, duration))] else []);
    Step(
      st.(isOnline := newState,
          lastStateChange := Some(now),
          offlineStartTime := if newState then None else Some(now),
          onlineStartTime := if newState then Some(now) else None),
      events)
  }

  /** The heartbeat is due once `heartbeatInterval` seconds have passed since the last one. */
  predicate HeartbeatDue(cfg: MonitorConfig, st: MonitorState, now: int) {
    now - st.lastHeartbeatTime >= cfg.heartbeatInterval
  }

  /** `send_heartbeat`: when due, one console-only line reporting the state,
      how long it has held ("0秒" if never set) and the total run time. */
  function SendHeartbeat(cfg: MonitorConfig, st: MonitorState, now: int): (r: Step)
    ensures HeartbeatDue(cfg, st, now) <==> r.events != []
    ensures !HeartbeatDue(cfg, st, now) ==> r.state == st
    ensures HeartbeatDue(cfg, st, now) ==> r.state == st.(lastHeartbeatTime := now)
    ensures HeartbeatDue(cfg, st, now) ==>
      r.events == [Log(HeartbeatMessage(st.isOnline,
                                        if st.lastStateChange.Some? then FormatDuration(st.lastStateChange.value, now)
                                        else FormatSeconds(0),
                                        FormatDuration(st.startTime, now)),
                       false)]
  {
    if now - st.lastHeartbeatTime >= cfg.heartbeatInterval then
      var stateDuration :=
        match st.lastStateChange
        case Some(since) => FormatDuration(since, now)
        case None => "0秒";
      assert FormatSeconds(0) == "0秒" by { FormatExamples(); }
      Step(st.(lastHeartbeatTime := now),
           [Log(HeartbeatMessage(st.isOnline, stateDuration, FormatDuration(st.startTime, now)), false)])
    else
      Step(st, [])
  }

  /** The sample-handling part of one loop iteration (everything before the heartbeat). */
  function Observe(cfg: MonitorConfig, st: MonitorState, sample: bool, now: int): (r: Step)
    ensures Inv(st) ==> Inv(r.state)
    ensures r.state.isOnline == (if Commits(cfg, st, sample, now) then sample else st.isOnline)
    ensures Commits(cfg, st, sample, now) ==> r.state.lastStateChange == Some(now) && NoPending(r.state)
    ensures Commits(cfg, st, sample, now) ==>
      r.events == RecordStateChange(cfg, st, sample, now).events + [Log(StateChangeMessage(sample), true)]
    ensures !Commits(cfg, st, sample, now) ==> r.state.lastStateChange == st.lastStateChange && r.events == []
    ensures !Commits(cfg, st, sample, now) && sample != st.isOnline ==>
      && PendingFor(r.state, sample) == (if PendingFor(st, sample).None? then Some(now) else PendingFor(st, sample))
      && PendingFor(r.state, !sample) == PendingFor(st, !sample)
    ensures sample == st.isOnline ==>
      PendingFor(r.state, sample) == None && PendingFor(r.state, !sample) == PendingFor(st, !sample)
    ensures r.state.startTime == st.startTime && r.state.lastHeartbeatTime == st.lastHeartbeatTime
  {
    if sample != st.isOnline then
      if sample then
        if st.onlineStartTime.None? then
          Step(st.(onlineStartTime := Some(now)), [])
        else if now - st.onlineStartTime.value >= cfg.onlineThreshold then
          var c := RecordStateChange(cfg, st, true, now);
          Step(c.state.(onlineStartTime := None), c.events + [Log(StateChangeMessage(true), true)])
        else
          Step(st, [])
      else
        if st.offlineStartTime.None? then
          Step(st.(offlineStartTime := Some(now)), [])
        else if now - st.offlineStartTime.value >= cfg.offlineThreshold then
          var c := RecordStateChange(cfg, st, false, now);
          Step(c.state.(offlineStartTime := None), c.events + [Log(StateChangeMessage(false), true)])
        else
          Step(st, [])
    else
      if sample then Step(st.(onlineStartTime := None), [])
      else Step(st.(offlineStartTime := None), [])
  }

  /** One iteration of the monitoring loop: handle the sample, then the heartbeat. */
  function Tick(cfg: MonitorConfig, st: MonitorState, sample: bool, now: int): (r: Step)
    ensures Inv(st) ==> Inv(r.state)
    ensures r.state.isOnline == (if Commits(cfg, st, sample, now) then sample else st.isOnline)
    ensures r.state.lastStateChange == (if Commits(cfg, st, sample, now) then Some(now) else st.lastStateChange)
    ensures r.state.startTime == st.startTime
    ensures r.state.lastHeartbeatTime == (if HeartbeatDue(cfg, st, now) then now else st.lastHeartbeatTime)
    ensures r.events == Observe(cfg, st, sample, now).events + SendHeartbeat(cfg, Observe(cfg, st, sample, now).state, now).events
  {
    var o := Observe(cfg, st, sample, now);
    var h := SendHeartbeat(cfg, o.state, now);
    Step(h.state, o.events + h.events)
  }

  /** The closing lines written when the loop is interrupted: the stop
      notice, then the still-open interval labelled with the current state. */
  function Stop(st: MonitorState, now: int): (events: seq<Event>)
    ensures 1 <= |events| && events[0] == Log(StoppedMessage, true)
    ensures st.lastStateChange.None? <==> |events| == 1
    ensures st.lastStateChange.Some? ==>
      |events| == 2 && events[1] == Record(st.lastStateChange.value, now, StateLabel(st.isOnline),
                                           FormatDuration(st.lastStateChange.value, now))
  {
    [Log(StoppedMessage, true)]
    + match st.lastStateChange
      case None => []
      case Some(since) => [Record(since, now, StateLabel(st.isOnline), FormatDuration(since, now))]
  }
}

=== FILE: runs.dfy ===
/** Sequences of poll ticks: the monitoring loop driven by a list of
    timed samples, and the debounce behaviour over such a list. */
module Runs {
  import opened Optional
  import opened Config
  import opened Duration
  import opened Presence
  import opened Debounce

  /** One probe result and the time it was taken. */
  datatype Sample = Sample(reachable: bool, at: int)

  /** Feeding `samples` in order through any step function. */
  function Fold(step: (MonitorState, Sample) -> Step, st: MonitorState, samples: seq<Sample>): Step
    decreases |samples|
  {
    if |samples| == 0 then Step(st, [])
    else
      var t := step(st, samples[0]);
      var rest := Fold(step, t.state, samples[1..]);
      Step(rest.state, t.events + rest.events)
  }

  /** Folding two lists back to back is folding their concatenation. */
  lemma {:induction false} FoldAppend(step: (MonitorState, Sample) -> Step, st: MonitorState, a: seq<Sample>, b: seq<Sample>)
    ensures var ra := Fold(step, st, a);
      var rb := Fold(step, ra.state, b);
      Fold(step, st, a + b) == Step(rb.state, ra.events + rb.events)
    decreases |a|
  {
    if |a| == 0 {
      assert a + b == b;
    } else {
      var t := step(st, a[0]);
      var ra := Fold(step, t.state, a[1..]);
      var rb := Fold(step, ra.state, b);
      assert (a + b)[0] == a[0];
      assert (a + b)[1..] == a[1..] + b;
      FoldAppend(step, t.state, a[1..], b);
      assert t.events + (ra.events + rb.events) == (t.events + ra.events) + rb.events;
    }
  }

  /** The monitoring loop run over `samples` in order: the final state and
      every event emitted. */
  function Run(cfg: MonitorConfig, st: MonitorState, samples: seq<Sample>): Step {
    Fold((s: MonitorState, x: Sample) => Tick(cfg, s, x.reachable, x.at), st, samples)
  }

  /** The interval records among `events`, in order. */
  function Records(events: seq<Event>): (rs: seq<Event>)
    ensures |rs| <= |events|
    ensures forall i :: 0 <= i < |rs| ==> rs[i].Record?
  {
    if |events| == 0 then []
    else (if events[0].Record? then [events[0]] else []) + Records(events[1..])
  }

  lemma {:induction false} RecordsAppend(a: seq<Event>, b: seq<Event>)
    ensures Records(a + b) == Records(a) + Records(b)
    decreases |a|
  {
    if |a| == 0 {
      assert a + b == b;
    } else {
      assert (a + b)[1..] == a[1..] + b;
      RecordsAppend(a[1..], b);
    }
  }

  lemma {:induction false} NoTransitionHasNoRecords(events: seq<Event>)
    requires NoTransition(events)
    ensures Records(events) == []
    decreases |events|
  {
    if |events| > 0 {
      NoTransitionHasNoRecords(events[1..]);
    }
  }

  /** Running two lists back to back is running their concatenation. */
  lemma RunAppend(cfg: MonitorConfig, st: MonitorState, a: seq<Sample>, b: seq<Sample>)
    ensures var ra := Run(cfg, st, a);
      var rb := Run(cfg, ra.state, b);
      Run(cfg, st, a + b) == Step(rb.state, ra.events + rb.events)
  {
    FoldAppend((s: MonitorState, x: Sample) => Tick(cfg, s, x.reachable, x.at), st, a, b);
  }

  /** An empty run changes nothing; otherwise the first tick comes first. */
  lemma RunUnfold(cfg: MonitorConfig, st: MonitorState, samples: seq<Sample>)
    ensures |samples| == 0 ==> Run(cfg, st, samples) == Step(st, [])
    ensures |samples| > 0 ==>
      var t := Tick(cfg, st, samples[0].reachable, samples[0].at);
      var rest := Run(cfg, t.state, samples[1..]);
      Run(cfg, st, samples) == Step(rest.state, t.events + rest.events)
  {
  }

  /** Once a change is on record it stays on record: a tick only ever
      replaces it by the time of a newer change. */
  lemma {:induction false} RunKeepsChangeOnRecord(cfg: MonitorConfig, st: MonitorState, samples: seq<Sample>)
    requires st.lastStateChange.Some?
    ensures Run(cfg, st, samples).state.lastStateChange.Some?
    decreases |samples|
  {
    RunUnfold(cfg, st, samples);
    if |samples| > 0 {
      var t := Tick(cfg, st, samples[0].reachable, samples[0].at);
      RunKeepsChangeOnRecord(cfg, t.state, samples[1..]);
    }
  }

  /** Every run keeps the pending-timer invariant, so at most one timer is
      ever running. Seeded monitors start with no timer at all. */
  lemma {:induction false} RunPreservesInv(cfg: MonitorConfig, st: MonitorState, samples: seq<Sample>)
    requires Inv(st)
    ensures Inv(Run(cfg, st, samples).state)
    ensures Run(cfg, st, samples).state.onlineStartTime.None? || Run(cfg, st, samples).state.offlineStartTime.None?
    decreases |samples|
  {
    RunUnfold(cfg, st, samples);
    if |samples| > 0 {
      var t := Tick(cfg, st, samples[0].reachable, samples[0].at);
      RunPreservesInv(cfg, t.state, samples[1..]);
    }
  }

  /** While every sample disagrees and none is `threshold` seconds after the
      running timer's start, nothing is committed: the state, its start time
      and the timer stay as they were and no transition is reported. */
  lemma {:induction false} HeldBelowThreshold(cfg: MonitorConfig, st: MonitorState, samples: seq<Sample>, since: int)
    requires Inv(st)
    requires PendingFor(st, !st.isOnline) == Some(since)
    requires forall i :: 0 <= i < |samples| ==>
      samples[i].reachable == !st.isOnline && samples[i].at - since < ThresholdFor(cfg, !st.isOnline)
    ensures var r := Run(cfg, st, samples);
      && r.state.isOnline == st.isOnline
      && r.state.lastStateChange == st.lastStateChange
      && PendingFor(r.state, !st.isOnline) == Some(since)
      && Inv(r.state)
      && NoTransition(r.events)
    decreases |samples|
  {
    RunUnfold(cfg, st, samples);
    if |samples| > 0 {
      var t := Tick(cfg, st, samples[0].reachable, samples[0].at);
      TransitionIffCommit(cfg, st, samples[0].reachable, samples[0].at);
      assert !Commits(cfg, st, samples[0].reachable, samples[0].at);
      assert PendingFor(t.state, !st.isOnline) == Some(since);
      HeldBelowThreshold(cfg, t.state, samples[1..], since);
      var rest := Run(cfg, t.state, samples[1..]);
      assert Run(cfg, st, samples).events == t.events + rest.events;
    }
  }

  lemma RunOne(cfg: MonitorConfig, st: MonitorState, s: Sample)
    ensures Run(cfg, st, [s]) == Tick(cfg, st, s.reachable, s.at)
  {
    var t := Tick(cfg, st, s.reachable, s.at);
    assert [s][1..] == [];
    RunUnfold(cfg, st, [s]);
    RunUnfold(cfg, t.state, []);
    assert t.events + [] == t.events;
  }

  lemma RunCons(cfg: MonitorConfig, st: MonitorState, s: Sample, rest: seq<Sample>)
    ensures var t := Tick(cfg, st, s.reachable, s.at);
      var r := Run(cfg, t.state, rest);
      Run(cfg, st, [s] + rest) == Step(r.state, t.events + r.events)
  {
    assert ([s] + rest)[0] == s;
    assert ([s] + rest)[1..] == rest;
    RunUnfold(cfg, st, [s] + rest);
  }

  /** The only interval record a committing tick writes is the one for the
      state being left. */
  lemma CommitRecords(cfg: MonitorConfig, st: MonitorState, sample: bool, now: int)
    requires Commits(cfg, st, sample, now)
    requires st.lastStateChange.Some?
    ensures Records(Tick(cfg, st, sample, now).events)
      == [Record(st.lastStateChange.value, now, StateLabel(st.isOnline), FormatDuration(st.lastStateChange.value, now))]
  {
    var o := Observe(cfg, st, sample, now);
    var h := SendHeartbeat(cfg, o.state, now);
    var c := RecordStateChange(cfg, st, sample, now);
    var note := [Log(StateChangeMessage(sample), true)];
    assert Tick(cfg, st, sample, now).events == (c.events + note) + h.events;
    RecordsAppend(c.events + note, h.events);
    RecordsAppend(c.events, note);
    assert Records(note) == [] by {
      assert note[1..] == [];
    }
    assert Records(h.events) == [] by {
      if h.events != [] {
        assert h.events[1..] == [];
      }
    }
    assert Records(c.events) == [c.events[0]] by {
      if NotificationsOn(cfg) {
        assert c.events[1..] == [c.events[1]];
        assert c.events[1..][1..] == [];
      } else {
        assert c.events[1..] == [];
      }
    }
  }

  /** The debounce promise. Starting with no timer, feed disagreeing samples
      s0, s1, ..., sk where sk is the first after s0 that comes `threshold`
      or more seconds after s0. Up to s(k-1) nothing is committed; sk commits,
      flipping the state with the interval restarted at sk and no timer left.
      When a previous change is on record, exactly one interval record is
      written over the whole run, covering the state being left from that
      change up to sk. */
  lemma DebounceCommitsAtThreshold(cfg: MonitorConfig, st: MonitorState, samples: seq<Sample>)
    requires Inv(st)
    requires PendingFor(st, !st.isOnline).None?
    requires 2 <= |samples|
    requires forall i :: 0 <= i < |samples| ==> samples[i].reachable == !st.isOnline
    requires forall j :: 1 <= j < |samples| - 1 ==>
      samples[j].at - samples[0].at < ThresholdFor(cfg, !st.isOnline)
    requires samples[|samples| - 1].at - samples[0].at >= ThresholdFor(cfg, !st.isOnline)
    ensures var before := Run(cfg, st, samples[..|samples| - 1]);
      && before.state.isOnline == st.isOnline
      && NoTransition(before.events)
    ensures var r := Run(cfg, st, samples);
      var last := samples[|samples| - 1].at;
      && r.state.isOnline == !st.isOnline
      && r.state.lastStateChange == Some(last)
      && NoPending(r.state)
      && (st.lastStateChange.Some? ==>
            Records(r.events) == [Record(st.lastStateChange.value, last, StateLabel(st.isOnline),
                                         FormatDuration(st.lastStateChange.value, last))])
  {
    var goal := !st.isOnline;
    var k := |samples| - 1;
    var s0 := samples[0];
    var middle := samples[1..k];
    var sk := samples[k];
    assert samples[..k] == [s0] + middle;
    assert samples == ([s0] + middle) + [sk];
    var t0 := Tick(cfg, st, goal, s0.at);
    FirstDisagreeingSampleOnlyStartsTimer(cfg, st, goal, s0.at);
    HeldBelowThreshold(cfg, t0.state, middle, s0.at);
    var m := Run(cfg, t0.state, middle);
    RunCons(cfg, st, s0, middle);
    assert NoTransition(t0.events + m.events);
    RunAppend(cfg, st, samples[..k], [sk]);
    RunOne(cfg, m.state, sk);
    var tk := Tick(cfg, m.state, goal, sk.at);
    assert Commits(cfg, m.state, goal, sk.at);
    CommitLeavesNoTimer(cfg, m.state, goal, sk.at);
    assert Run(cfg, st, samples) == Step(tk.state, (t0.events + m.events) + tk.events);
    if st.lastStateChange.Some? {
      NoTransitionHasNoRecords(t0.events + m.events);
      RecordsAppend(t0.events + m.events, tk.events);
      CommitRecords(cfg, m.state, goal, sk.at);
    }
  }

  /** As written, a flap does not restart the debounce: a disagreeing sample
      at t0 starts the timer, an agreeing sample at t1 leaves it running,
      and a disagreeing sample at t2 already commits once t2 - t0 reaches
      the threshold. */
  lemma FlapKeepsTimerRunning(cfg: MonitorConfig, st: MonitorState, t0: int, t1: int, t2: int)
    requires Inv(st) && NoPending(st)
    requires t2 - t0 >= ThresholdFor(cfg, !st.isOnline)
    ensures var r := Run(cfg, st, [Sample(!st.isOnline, t0), Sample(st.isOnline, t1), Sample(!st.isOnline, t2)]);
      && r.state.isOnline == !st.isOnline
      && r.state.lastStateChange == Some(t2)
  {
    var a := Tick(cfg, st, !st.isOnline, t0);
    FirstDisagreeingSampleOnlyStartsTimer(cfg, st, !st.isOnline, t0);
    var b := Tick(cfg, a.state, st.isOnline, t1);
    AgreeingSampleKeepsPendingTimer(cfg, a.state, st.isOnline, t1);
    assert PendingFor(b.state, !st.isOnline) == Some(t0);
    var c := Tick(cfg, b.state, !st.isOnline, t2);
    assert Commits(cfg, b.state, !st.isOnline, t2);
    RunOne(cfg, b.state, Sample(!st.isOnline, t2));
    RunCons(cfg, a.state, Sample(st.isOnline, t1), [Sample(!st.isOnline, t2)]);
    RunCons(cfg, st, Sample(!st.isOnline, t0), [Sample(st.isOnline, t1), Sample(!st.isOnline, t2)]);
    assert [Sample(st.isOnline, t1)] + [Sample(!st.isOnline, t2)] == [Sample(st.isOnline, t1), Sample(!st.isOnline, t2)];
    assert [Sample(!st.isOnline, t0)] + [Sample(st.isOnline, t1), Sample(!st.isOnline, t2)]
      == [Sample(!st.isOnline, t0), Sample(st.isOnline, t1), Sample(!st.isOnline, t2)];
  }
}

=== FILE: single_monitor.dfy ===
/** The single-target monitor: its configuration file, which requires most
    keys outright, and the statement that its loop is the shared presence
    state machine (the two programs' loop bodies are the same code). */
module SingleMonitor {
  import opened Optional
  import opened Config
  import opened Duration
  import opened Presence
  import opened Debounce
  import opened Runs

  datatype TargetKeys = TargetKeys(ip: Option<string>, mac: Option<string>)
  datatype SlackKeys = SlackKeys(enabled: Option<bool>, webhookUrl: Option<string>, channel: Option<string>)

  /** The configuration file; every key may be missing. */
  datatype SingleConfig = SingleConfig(
    target: Option<TargetKeys>,
    pingInterval: Option<int>,
    offlineThreshold: Option<int>,
    onlineThreshold: Option<int>,
    heartbeatInterval: Option<int>,
    logFile: Option<string>,
    slack: Option<SlackKeys>)

  /** The keys read with `[...]`, in the order they are read. */
  const RequiredKeys: seq<string> := [
    "target", "target.ip", "target.mac", "ping_interval", "offline_threshold",
    "log_file", "slack", "slack.enabled", "slack.webhook_url", "slack.channel"]

  /** Every required key is present. */
  predicate Complete(c: SingleConfig) {
    && c.target.Some? && c.target.value.ip.Some? && c.target.value.mac.Some?
    && c.pingInterval.Some? && c.offlineThreshold.Some? && c.logFile.Some?
    && c.slack.Some? && c.slack.value.enabled.Some? && c.slack.value.webhookUrl.Some? && c.slack.value.channel.Some?
  }

  predicate Present(c: SingleConfig, key: string) {
    match key
    case "target" => c.target.Some?
    case "target.ip" => c.target.Some? && c.target.value.ip.Some?
    case "target.mac" => c.target.Some? && c.target.value.mac.Some?
    case "ping_interval" => c.pingInterval.Some?
    case "offline_threshold" => c.offlineThreshold.Some?
    case "log_file" => c.logFile.Some?
    case "slack" => c.slack.Some?
    case "slack.enabled" => c.slack.Some? && c.slack.value.enabled.Some?
    case "slack.webhook_url" => c.slack.Some? && c.slack.value.webhookUrl.Some?
    case "slack.channel" => c.slack.Some? && c.slack.value.channel.Some?
    case _ => true
  }

  /** `NetworkMonitor.__init__` of the single-target program. It fails on
      the first required key that is missing; `online_threshold` defaults
      to 60 and `heartbeat_interval` to 300; there is no `enable` switch,
      so the monitor always runs. */
  function ResolveSingle(c: SingleConfig): (r: Result<MonitorConfig, ConfigError>)
    ensures r.Success? <==> Complete(c)
    ensures r.Success? <==> forall i :: 0 <= i < |RequiredKeys| ==> Present(c, RequiredKeys[i])
    ensures r.Failure? ==>
      exists i :: && 0 <= i < |RequiredKeys|
                  && r.error == MissingKey(RequiredKeys[i])
                  && !Present(c, RequiredKeys[i])
                  && forall j :: 0 <= j < i ==> Present(c, RequiredKeys[j])
    ensures r.Success? ==> r.value.enable
    ensures r.Success? ==> r.value.onlineThreshold == c.onlineThreshold.GetOr(60)
    ensures r.Success? ==> r.value.heartbeatInterval == c.heartbeatInterval.GetOr(300)
    ensures r.Success? ==> r.value.offlineThreshold == c.offlineThreshold.value
    ensures r.Success? ==> r.value.logFile == c.logFile.value
    ensures r.Success? ==> r.value.target == (if c.target.value.mac.value != "" then c.target.value.mac.value else c.target.value.ip.value)
    ensures r.Success? ==> r.value.mac == c.target.value.mac.value && r.value.ip == c.target.value.ip.value
    ensures r.Success? ==> r.value.useMac == (c.target.value.mac.value != "")
    ensures r.Success? ==> r.value.pingInterval == c.pingInterval.value
    ensures r.Success? ==> && r.value.slackEnabled == c.slack.value.enabled.value
                           && r.value.webhookUrl == c.slack.value.webhookUrl.value
                           && r.value.channel == c.slack.value.channel.value
  {
    if c.target.None? then Failure(MissingKey(RequiredKeys[0]))
    else if c.target.value.ip.None? then Failure(MissingKey(RequiredKeys[1]))
    else if c.target.value.mac.None? then Failure(MissingKey(RequiredKeys[2]))
    else if c.pingInterval.None? then Failure(MissingKey(RequiredKeys[3]))
    else if c.offlineThreshold.None? then Failure(MissingKey(RequiredKeys[4]))
    else if c.logFile.None? then Failure(MissingKey(RequiredKeys[5]))
    else if c.slack.None? then Failure(MissingKey(RequiredKeys[6]))
    else if c.slack.value.enabled.None? then Failure(MissingKey(RequiredKeys[7]))
    else if c.slack.value.webhookUrl.None? then Failure(MissingKey(RequiredKeys[8]))
    else if c.slack.value.channel.None? then Failure(MissingKey(RequiredKeys[9]))
    else
      var ip := c.target.value.ip.value;
      var mac := c.target.value.mac.value;
      Success(MonitorConfig(
        ip := ip,
        mac := mac,
        target := Identity(ip, mac),
        useMac := mac != "",
        enable := true,
        pingInterval := c.pingInterval.value,
        offlineThreshold := c.offlineThreshold.value,
        onlineThreshold := c.onlineThreshold.GetOr(DefaultOnlineThreshold),
        heartbeatInterval := c.heartbeatInterval.GetOr(DefaultHeartbeatInterval),
        logFile := c.logFile.value,
        slackEnabled := c.slack.value.enabled.value,
        webhookUrl := c.slack.value.webhookUrl.value,
        channel := c.slack.value.channel.value))
  }

  /** `run` without an enable gate: the first sample becomes the state at
      once, announced as the initial state, with no transition reported. */
  lemma StartAnnouncesInitialState(c: SingleConfig, t0: int, sample: bool, now: int)
    requires ResolveSingle(c).Success?
    ensures var r := Begin(ResolveSingle(c).value, Created(t0), sample, now);
      && r.Running?
      && r.state.isOnline == sample && r.state.lastStateChange == Some(now)
      && Inv(r.state) && NoPending(r.state)
      && NoTransition(r.events)
      && r.events[0] == Log(StartMessage(ResolveSingle(c).value.target, c.target.value.mac.value != ""), true)
      && r.events[1] == Log("初始状态: " + StateLabel(sample), true)
  {
  }

  /** The loop body of the single-target program keeps the pending-timer
      invariant, commits exactly when the sample disagrees, its timer is
      running and the threshold from this file's settings has elapsed, and
      leaves no timer after a commit; an agreeing sample changes nothing. */
  lemma TickSemantics(c: SingleConfig, st: MonitorState, sample: bool, now: int)
    requires ResolveSingle(c).Success?
    requires Inv(st)
    ensures var cfg := ResolveSingle(c).value;
      var r := Tick(cfg, st, sample, now);
      && Inv(r.state)
      && (Commits(cfg, st, sample, now) <==>
            && sample != st.isOnline
            && PendingFor(st, sample).Some?
            && now - PendingFor(st, sample).value
               >= (if sample then c.onlineThreshold.GetOr(60) else c.offlineThreshold.value))
      && (Commits(cfg, st, sample, now) ==>
            r.state.isOnline == sample && r.state.lastStateChange == Some(now) && NoPending(r.state))
      && (Commits(cfg, st, sample, now) <==> !NoTransition(r.events))
      && (sample == st.isOnline ==>
            && r.state.isOnline == st.isOnline
            && r.state.lastStateChange == st.lastStateChange
            && r.state.onlineStartTime == st.onlineStartTime
            && r.state.offlineStartTime == st.offlineStartTime)
  {
    var cfg := ResolveSingle(c).value;
    TransitionIffCommit(cfg, st, sample, now);
    if sample == st.isOnline {
      AgreeingSampleKeepsPendingTimer(cfg, st, sample, now);
    }
  }

  /** A disagreeing sample with no timer running only starts the timer,
      even when the configured threshold is zero. */
  lemma FirstSampleOnlyStartsTimer(c: SingleConfig, st: MonitorState, sample: bool, now: int)
    requires ResolveSingle(c).Success?
    requires sample != st.isOnline && PendingFor(st, sample).None?
    ensures var r := Tick(ResolveSingle(c).value, st, sample, now);
      && r.state.isOnline == st.isOnline
      && PendingFor(r.state, sample) == Some(now)
      && NoTransition(r.events)
  {
    FirstDisagreeingSampleOnlyStartsTimer(ResolveSingle(c).value, st, sample, now);
  }

  /** The transition record and Slack text: labelled with the state being
      left, timed from the previous change to now, and absent when no
      previous change is on record. */
  lemma TransitionReport(c: SingleConfig, st: MonitorState, newState: bool, now: int)
    requires ResolveSingle(c).Success?
    ensures var cfg := ResolveSingle(c).value;
      var es := RecordStateChange(cfg, st, newState, now).events;
      && (st.lastStateChange.None? ==> es == [])
      && (st.lastStateChange.Some? ==>
            && es[0] == Record(st.lastStateChange.value, now, StateLabel(st.isOnline),
                               FormatDuration(st.lastStateChange.value, now))
            && (c.slack.value.enabled.value && c.slack.value.webhookUrl.value != "" ==>
                  es[1] == Notify(c.slack.value.channel.value,
                                  NotificationText(cfg.target, st.isOnline,
                                                   FormatDuration(st.lastStateChange.value, now))))
            && (!c.slack.value.enabled.value || c.slack.value.webhookUrl.value == "" ==> |es| == 1))
  {
  }

  /** The heartbeat fires exactly when `heartbeat_interval` (default 300)
      seconds have passed since the last one, then restarts its clock at
      now, and is never written to the log file. */
  lemma HeartbeatSchedule(c: SingleConfig, st: MonitorState, now: int)
    requires ResolveSingle(c).Success?
    ensures var r := SendHeartbeat(ResolveSingle(c).value, st, now);
      && (r.events != [] <==> now - st.lastHeartbeatTime >= c.heartbeatInterval.GetOr(300))
      && (r.events != [] ==> r.state.lastHeartbeatTime == now && |r.events| == 1 && r.events[0].Log? && !r.events[0].toFile)
      && (r.events == [] ==> r.state == st)
  {
  }

  /** On interrupt, after seeding and any number of ticks: the stop notice,
      then the still-open interval labelled with the current state and
      ending now. Seeding always puts a change on record and no tick removes
      it, so the closing interval is always written. */
  lemma {:induction false} ClosingRecord(c: SingleConfig, t0: int, first: bool, t1: int, samples: seq<Sample>, now: int)
    requires ResolveSingle(c).Success?
    ensures Begin(ResolveSingle(c).value, Created(t0), first, t1).Running?
    ensures var cfg := ResolveSingle(c).value;
      var st := Run(cfg, Begin(cfg, Created(t0), first, t1).state, samples).state;
      && st.lastStateChange.Some?
      && Stop(st, now) == [Log(StoppedMessage, true),
                           Record(st.lastStateChange.value, now, StateLabel(st.isOnline),
                                  FormatDuration(st.lastStateChange.value, now))]
  {
    var cfg := ResolveSingle(c).value;
    var b := Begin(cfg, Created(t0), first, t1);
    RunKeepsChangeOnRecord(cfg, b.state, samples);
  }
}

=== FILE: supervisor.dfy ===
/** `MultiNetworkMonitor`: one monitor built per configured target, and
    only the enabled ones started. */
module Supervisor {
  import opened Optional
  import opened Config

  /** The loaded configuration file: the `targets` list, the remaining
      global settings and the `log_path` directory. */
  datatype AppConfig = AppConfig(targets: Option<seq<TargetConfig>>, global: GlobalConfig, logPath: Option<string>)

  const DefaultLogPath: string := "./logs"
  const NoTargetsMessage: string := "没有配置监控目标"

  /** One monitor per target, in order; building stops at the first target
      without an `ip`. */
  function BuildMonitors(targets: seq<TargetConfig>, g: GlobalConfig, logPath: string): (r: Result<seq<MonitorConfig>, ConfigError>)
    ensures r.Success? <==> forall i :: 0 <= i < |targets| ==> targets[i].ip.Some?
    ensures r.Failure? ==> r.error == MissingKey("ip")
    ensures r.Success? ==> |r.value| == |targets|
    ensures r.Success? ==> forall i :: 0 <= i < |targets| ==> r.value[i] == Resolve(targets[i], g, logPath).value
  {
    if |targets| == 0 then Success([])
    else if targets[0].ip.None? then Failure(MissingKey("ip"))
    else
      var tail := BuildMonitors(targets[1..], g, logPath);
      if tail.Failure? then
        assert exists j :: 1 <= j < |targets| && targets[j].ip.None? by {
          var j :| 0 <= j < |targets[1..]| && targets[1..][j].ip.None?;
          assert targets[j + 1] == targets[1..][j];
        }
        tail
      else
        var r := [Resolve(targets[0], g, logPath).value] + tail.value;
        assert forall i :: 1 <= i < |targets| ==> targets[i] == targets[1..][i - 1] && r[i] == tail.value[i - 1];
        Success(r)
  }

  /** `MultiNetworkMonitor.__init__`: a missing `targets` list means no
      targets, a missing `log_path` means "./logs". */
  function Setup(app: AppConfig): (r: Result<seq<MonitorConfig>, ConfigError>)
    ensures app.targets.None? ==> r == Success([])
    ensures app.targets.Some? ==> (r.Success? <==> forall i :: 0 <= i < |app.targets.value| ==> app.targets.value[i].ip.Some?)
    ensures r.Success? && app.targets.Some? ==> |r.value| == |app.targets.value|
    ensures r.Success? && app.targets.Some? ==>
      forall i :: 0 <= i < |r.value| ==>
        r.value[i].logFile == JoinPath(app.logPath.GetOr(DefaultLogPath), LogFileName(app.targets.value[i].ip.value))
  {
    BuildMonitors(app.targets.GetOr([]), app.global, app.logPath.GetOr(DefaultLogPath))
  }

  /** The enabled monitors, in their configured order. */
  function Enabled(monitors: seq<MonitorConfig>): (r: seq<MonitorConfig>)
    ensures |r| <= |monitors|
    ensures forall i :: 0 <= i < |r| ==> r[i].enable && r[i] in monitors
    ensures forall i :: 0 <= i < |monitors| && monitors[i].enable ==> monitors[i] in r
  {
    if |monitors| == 0 then []
    else (if monitors[0].enable then [monitors[0]] else []) + Enabled(monitors[1..])
  }

  lemma {:induction false} EnabledAppend(a: seq<MonitorConfig>, b: seq<MonitorConfig>)
    ensures Enabled(a + b) == Enabled(a) + Enabled(b)
    decreases |a|
  {
    if |a| == 0 {
      assert a + b == b;
    } else {
      assert (a + b)[1..] == a[1..] + b;
      EnabledAppend(a[1..], b);
    }
  }

  /** One more monitor of the list adds itself exactly when it is enabled. */
  lemma EnabledSnoc(monitors: seq<MonitorConfig>, i: int)
    requires 0 <= i < |monitors|
    ensures Enabled(monitors[..i + 1]) == Enabled(monitors[..i]) + (if monitors[i].enable then [monitors[i]] else [])
  {
    EnabledAppend(monitors[..i], [monitors[i]]);
    assert monitors[..i + 1] == monitors[..i] + [monitors[i]];
  }

  /** Each enabled monitor is kept as many times as it is configured, and
      a disabled one not at all. */
  lemma {:induction false} EnabledCounts(monitors: seq<MonitorConfig>)
    ensures forall m :: multiset(Enabled(monitors))[m] == if m.enable then multiset(monitors)[m] else 0
    decreases |monitors|
  {
    if |monitors| > 0 {
      EnabledCounts(monitors[1..]);
      assert monitors == [monitors[0]] + monitors[1..];
    }
  }

  /** `MultiNetworkMonitor.run`: with no monitors, the console notice and
      nothing started; otherwise one started monitor per enabled one, in
      order. The version banner is not modelled. */
  method Launch(monitors: seq<MonitorConfig>) returns (started: seq<MonitorConfig>, console: seq<string>)
    ensures monitors == [] ==> started == [] && console == [NoTargetsMessage]
    ensures monitors != [] ==> console == [] && started == Enabled(monitors)
  {
    console := [];
    started := [];
    if monitors == [] {
      console := [NoTargetsMessage];
      return;
    }
    var i := 0;
    while i < |monitors|
      invariant 0 <= i <= |monitors|
      invariant started == Enabled(monitors[..i])
    {
      EnabledSnoc(monitors, i);
      if monitors[i].enable {
        started := started + [monitors[i]];
      }
      i := i + 1;
    }
    assert monitors[..i] == monitors;
  }

  /** The two-target fixture: both targets get a monitor, only the enabled
      one is started. */
  lemma TwoTargetExample()
    ensures var app := AppConfig(
        Some([ TargetConfig(Some("192.168.1.1"), None, Some(true), Some(1), None, None),
               TargetConfig(Some("192.168.1.2"), None, Some(false), Some(2), None, None) ]),
        GlobalConfig(Some(5), None, None, None),
        Some("/tmp/test_logs"));
      var r := Setup(app);
      && r.Success? && |r.value| == 2
      && r.value[0].ip == "192.168.1.1" && r.value[0].enable && r.value[0].pingInterval == 1
      && r.value[1].ip == "192.168.1.2" && !r.value[1].enable && r.value[1].pingInterval == 2
      && Enabled(r.value) == [r.value[0]]
  {
    var app := AppConfig(
        Some([ TargetConfig(Some("192.168.1.1"), None, Some(true), Some(1), None, None),
               TargetConfig(Some("192.168.1.2"), None, Some(false), Some(2), None, None) ]),
        GlobalConfig(Some(5), None, None, None),
        Some("/tmp/test_logs"));
    var r := Setup(app);
    assert r.value[1..][1..] == [];
    assert Enabled(r.value[1..]) == [];
  }
}
